=== FILE: README.md ===
# lume-services results core, modelled in Dafny

This project models four small pieces of validation and dispatch logic of
lume-services. The Python values they inspect are one `Value` datatype
(`values.dfy`), with Python truthiness as the `Truthy` predicate.

- **Mapped parameters** (`flow.py`, module `Flows`). A parameter of a flow can
  be collected from a task of another flow. It comes in three variants, `Raw`,
  `File` and `Db`. A closed table maps the keys `"raw"`, `"file"` and `"db"` to
  the variants. The `mapped_parameters` validator turns raw entries into
  variants.
- **Result records** (`generic_result.dfy`, module `GenericResults`). The root
  validator derives a record's `unique_hash` from its default uniqueness
  fields. The external `fingerprint_dict` is a function-typed parameter. Its
  one modelled property comes from the value model: a nested dict is a map, so
  the fingerprint cannot see the insertion order of nested dicts. The validator also turns an `ObjectId` id into a string
  and stamps the result type string. A strict schema then applies, with
  aliases and extra keys forbidden. The module also covers the unique index and
  the single-match loader.
- **Results DB service** (`results_db_service.py`, module `ResultsDbService`).
  It covers `store`, `find`, `find_all` and the registry lookup. The backend is
  a sequence of documents with three abstract calls. `MemoryBackend` is one
  instance of that backend: it appends and numbers documents. It is used to
  relate `store` to what `find` and `find_all` then return.
- **Variable preparation** (`configure.py`, module `Configure`).
  `prepare_lume_model_variables` sets each variable named in the value map to
  the supplied value and every other variable to its default. It rejects names
  the model does not have.

## Model

| member | source | states |
|---|---|---|
| Flows.GetMappedParameterType | lume_services/flows/flow.py:71-83 | succeeds exactly for the keys "db", "file", "raw"; the variant found has that key as its own map type; any other value is an `UnknownMapType` error |
| Flows.Build | lume_services/flows/flow.py:30-32 | the keyword constructor succeeds iff both parent names are strings, a supplied `map_type` equals the variant's constant, and a db `attribute_index` is a list or None; the result carries those names and the variant's map type |
| Flows.Convert | lume_services/flows/flow.py:130-148 | (corrected) a built parameter is kept; a non-dict fails; a dict with falsy `map_type` becomes `Raw` exactly when both parent names are given; a truthy `map_type` outside the table fails; a dict with map type "db", "file" or "raw" succeeds exactly when both parent names are given and, for "db", `attribute_index` is a list or None; a success's map type equals the supplied key, its parent names are the supplied ones, and a db variant carries the supplied `attribute_index` |
| Flows.ConvertAsWritten | lume_services/flows/flow.py:130-148 | (as written) a built parameter is kept unchanged |
| Flows.ValidateWith | lume_services/flows/flow.py:122-150 | for a given entry conversion: None passes through; success iff every entry converts; then the output has exactly the input's keys, each mapped to its converted entry; a failure carries a failing entry's error |
| Flows.ValidateMappedAsWritten | lume_services/flows/flow.py:122-150 | (as written) the validator with the as-written conversion: None passes through; success iff every entry converts as written; the output has the input's keys, each mapped to its converted entry; a failure carries a failing entry's error |
| Flows.ValidateMapped | lume_services/flows/flow.py:122-150 | (corrected) None passes through; success iff every entry converts; then the output has exactly the input's keys, each mapped to its converted entry; a failure carries a failing entry's error and no map |
| Flows.AsWrittenRejectsFalsyMapType | lume_services/flows/flow.py:137-138 | as written, every dict whose `map_type` is present but falsy is rejected by the raw variant's constant `map_type` |
| Flows.EmptyMapTypeCounterexample | lume_services/flows/flow.py:137-138 | for `map_type` "" with both parent names, the as-written code fails while the corrected conversion yields `Raw("f", "t")` |
| Flows.EmptyMapTypeMapCounterexample | lume_services/flows/flow.py:137-138 | for the one-entry map `{"p": {"parent_flow_name": "f", "parent_task_name": "t", "map_type": ""}}`, not every entry converts as written, so the as-written validator fails, while every entry converts under the correction and "p" becomes `Raw("f", "t")` |
| Flows.AsWrittenAgreesElsewhere | lume_services/flows/flow.py:132-148 | away from a present falsy `map_type`, the as-written and corrected conversions are equal |
| GenericResults.Schema | lume_services/data/results/generic.py:17-43 | the record is built iff every field validates and no key is extra; each field comes from its alias key first, then its name; `flow_id`, `inputs`, `outputs`, `unique_hash`, `result_type_string` and `date_modified` are the supplied values; `model_type` (alias `collection`) is the supplied string or "generic"; an `_id`/`id` string is the id and an absent or None one gives no id; `unique_on` (alias `index`) is the supplied list of strings or the default; a supplied None `date_modified` is invalid and an absent one is the class default; on failure both the invalid fields and the extra keys are reported |
| GenericResults.FirstMissing | lume_services/data/results/generic.py:52-54 | none is reported iff every field is present and truthy; otherwise it reports the first field, in declared order, that is missing or falsy |
| GenericResults.ValidateAll | lume_services/data/results/generic.py:45-67 | fails iff no truthy hash is supplied and a default unique field is missing or falsy, naming the first one; otherwise the hash is the supplied one or the fingerprint of exactly `inputs`, `outputs`, `flow_id` in that order; an `ObjectId` `_id` becomes its hex string and any other `_id` is kept; the type string is stamped; all other keys are unchanged |
| GenericResults.Construct | lume_services/data/results/generic.py:14-67 | construction fails only with a missing unique field or a schema violation |
| GenericResults.MinimalRecordBuilds | lume_services/data/results/generic.py:14-67 | a non-empty `flow_id`, `inputs` and `outputs` with nothing else build a record carrying them, with model type "generic", no id, the default `unique_on` and `date_modified`, the type string stamped and the hash the fingerprint of those three fields in order |
| GenericResults.MinimalValidateAll | lume_services/data/results/generic.py:45-67 | for that minimal input the root validator adds exactly the derived hash and the type string |
| GenericResults.MinimalSchema | lume_services/data/results/generic.py:17-43 | the strict schema accepts the minimal validated input and fills every other field with its default |
| GenericResults.MissingUniqueFieldFails | lume_services/data/results/generic.py:50-54 | without a truthy hash, a missing or falsy default unique field makes construction fail, naming a default field that is missing or falsy |
| GenericResults.SuppliedHashKept | lume_services/data/results/generic.py:50-51 | a supplied truthy hash skips the field check and is the record's hash |
| GenericResults.DerivedHashIsFingerprint | lume_services/data/results/generic.py:56-58 | a derived hash is the fingerprint of exactly the `inputs`, `outputs`, `flow_id` items |
| GenericResults.EqualUniqueFieldsEqualHash | lume_services/data/results/generic.py:47-58 | two records that both construct with derived hashes and have equal `inputs`, `outputs`, `flow_id` get equal hashes, whatever else they carry |
| GenericResults.CallerIndexIgnoredByHash | lume_services/data/results/generic.py:47 | when both construct, adding a caller `index` does not change the derived hash, which uses the class default `unique_on` |
| GenericResults.TypeStringStamped | lume_services/data/results/generic.py:65 | `result_type_string` is always the generic module and class name, whatever was supplied |
| GenericResults.IdNormalised | lume_services/data/results/generic.py:60-63 | an `ObjectId` `_id` becomes the record's id as a string; a string `_id` is kept |
| GenericResults.DomainFieldsKept | lume_services/data/results/generic.py:23-25 | the record's `inputs`, `outputs`, `flow_id` are the supplied values |
| GenericResults.DefaultUniqueOnKept | lume_services/data/results/generic.py:29-31 | without a caller `unique_on` or `index`, the record's `unique_on` is the default |
| GenericResults.UndeclaredKeyRejected | lume_services/data/results/generic.py:39-43 | a key that is neither a declared field nor an alias makes construction fail |
| GenericResults.AliasAndNameBothRejected | lume_services/data/results/generic.py:17-43 | a field given under both its alias and its name fails: the name is then an extra key |
| GenericResults.IndexOn | lume_services/data/results/generic.py:69-70 | succeeds iff every listed name is an attribute; its keys are exactly the listed names, each mapped to the record's value; otherwise it names a missing attribute |
| GenericResults.DefaultUniqueIndex | lume_services/data/results/generic.py:69-70 | with the default `unique_on`, the index maps `inputs`, `outputs`, `flow_id` to the record's values |
| GenericResults.UniqueIndexReproducesHash | lume_services/data/results/generic.py:56-70 | for a record with a derived hash and the default `unique_on`, fingerprinting the unique index in `unique_on` order gives back the stored hash |
| GenericResults.LoadResult | lume_services/data/results/generic.py:80-96 | zero matches in the default collection give a not-found error and only then; several matches give the multiple-results error and only then; one match gives the record built from it |
| GenericResults.LoadedRecordKeepsIdentity | lume_services/data/results/generic.py:86-96 | a loaded document's stored hash and `ObjectId` become the record's hash and string id |
| ResultsDbService.GetModelDocType | lume_services/data/results/results_db_service.py:71-73 | resolves exactly the names in the module-level registry, to their registered class; the service's injected registry plays no part |
| ResultsDbService.Store | lume_services/data/results/results_db_service.py:22-42 | an unregistered name fails and the documents are unchanged; otherwise one document of the resolved class is built from the keyword fields and inserted once, and the result is true iff the returned `inserted_id` is truthy |
| ResultsDbService.Find | lume_services/data/results/results_db_service.py:44-50 | fails iff the name is unregistered; otherwise returns the backend's matches for the resolved class, query and fields, in order |
| ResultsDbService.FindWithDefaults | lume_services/data/results/results_db_service.py:44 | without a query argument, the backend is asked with the empty query and no projection |
| ResultsDbService.UnregisteredNameAsymmetry | lume_services/data/results/results_db_service.py:22-56 | for an unregistered name, `find` fails, and `store` fails and inserts nothing whatever the keyword fields, while `find_all` still reaches the backend |
| ResultsDbService.InjectedRegistryIgnored | lume_services/data/results/results_db_service.py:18-20 | services that differ only in their injected registry resolve, store and find alike |
| MemoryBackend.StoreAppendsOne | lume_services/data/results/results_db_service.py:28-42 | storing under a registered name into the in-memory backend returns true and appends exactly the one document built from the keyword fields |
| MemoryBackend.StoreThenFind | lume_services/data/results/results_db_service.py:22-50 | a stored document is the only result of a query it matches when nothing matched before |
| MemoryBackend.FindAllAgreesWithFind | lume_services/data/results/results_db_service.py:44-56 | with only registered classes stored, `find_all` of a name equals `find` with the defaults; `find_all` on an empty store is the empty list, not an error |
| Configure.Prepared | lume_services/tasks/configure.py:52-76 | same keys as the variables; a named variable's value is the supplied one, every other value is the default; `default` and the other attributes are unchanged |
| Configure.MissingValues | lume_services/tasks/configure.py:65-67 | the missing names are exactly the variables absent from the value map, each listed once |
| Configure.PrepareLumeModelVariables | lume_services/tasks/configure.py:34-76 | fails iff the value map names a variable the model lacks, reporting such a name; otherwise returns the prepared variables |
| Configure.PreparedIdempotent | lume_services/tasks/configure.py:63-74 | preparing again with the same value map changes nothing |
| Configure.PreparedForgetsOldValues | lume_services/tasks/configure.py:63-74 | the prepared variables do not depend on the values the variables held before |

## Left out

- `Flow.load_flow`, `register`, `run` and `run_and_return` are left out. They are calls into the Prefect scheduling service.
- `FlowConfig` and `FlowRunConfig` are left out. They are unused declarations.
- A direct instance of the base `MappedParameter` class is not a variant of the model. The validator keeps any built instance unchanged, so only the three subclasses are modelled.
- String fields accept only strings. The model library's coercion of numbers to strings is not modelled.
- An unhashable `map_type` raises `TypeError` rather than `ValueError` in the source. The model reports both as `UnknownMapType`.
- Flows.ValidateMapped: a failure carries the error of some failing entry, not necessarily the first in dict insertion order, because maps carry no order.
- Configure.PrepareLumeModelVariables: a failure names some unknown variable, not necessarily the first in insertion order, for the same reason. The warning log line is omitted.
- The deep copy is not a contract. Maps are values in Dafny, so the caller's variables cannot change.
- Configure.PrepareLumeModelVariables: the model assumes one distinct variable object per name. A deep copy keeps objects shared between entries shared, so in the source two names bound to one object both end with whichever value is written last, which is the default when one of the names is absent from the value map; the model sets each name independently.
- Configure.PrepareLumeModelVariables: lume-model's variable class is not part of this model. Each variable is a record in which every entry has a `default`, and assigning `value` is a plain field update. Failures raised by the variable objects themselves, such as a missing `default` attribute or an assignment the class refuses or validates, are not represented, so the call fails only on an unknown name.
- GenericResults.Schema: the model library reports one error per field. The model reports the sets of invalid fields and extra keys instead.
- `date_modified` is opaque. The class-level timestamp default is a constant, and any non-None supplied value is accepted without parsing.
- `fingerprint_dict` is a parameter with no injectivity property. Its encoding error is not modelled.
- GenericResults.DerivedHashIsFingerprint: a `Dict` value is a map, so the insertion order of a dict nested in `inputs` or `outputs` is not represented. The model therefore treats `fingerprint_dict` as insensitive to nested dict order, which the source does not promise; two records whose nested dicts differ only in order get equal hashes in the model.
- Subclasses of `Result` are left out. So are `getattr` hits on methods or class attributes, which the unique index treats as missing.
- `Result.insert` and `jsonable_dict` are left out. They are database I/O and JSON encoding.
- The results service that `load_result` queries (lume_services/services/data/results) is not part of this model. Its `find` is a function parameter.
- `ResultsDBService.load_dataframe` is left out. It is pandas table construction and datetime parsing.
- The `print` calls in `store` are left out. They are side effects only.
- The document classes and the `ModelDocs` enum (lume_services/data/results/db) are not part of this model. The registry holds "generic" and "impact", each with a collection of the same name. Building a document from keyword fields always succeeds in the model.
- ResultsDbService.Store, ResultsDbService.Find, ResultsDbService.FindAll: the backend calls `insert_one`, `find` and `find_all` always return in the model. A backend that raises, and the error `store`, `find` or `find_all` would then propagate, is not represented.
- The database backend is abstract. `MemoryBackend` is a simple instance that does not model a real document database.
- `check_local_execution` and `configure_lume_services` are left out. They read global settings and the environment.
- The test fixtures, the scheduling tests and concurrency between callers are left out.

## Findings

| source | as written | input that shows it | evidently intended | confidence | as-written member | corrected member |
|---|---|---|---|---|---|---|
| lume_services/flows/flow.py:137-138 | a dict whose `map_type` is present but falsy goes, `map_type` included, to `RawMappedParameter(**param)`. That class declares `map_type` as a constant field equal to "raw", so any other supplied value, "" and None included, is rejected | `{"parent_flow_name": "f", "parent_task_name": "t", "map_type": ""}` | a falsy `map_type` defaults to a raw parameter, as the "default raw" comment and the `not param.get("map_type")` condition say | not executed; medium, since it rests on the model library's constant-field check | Flows.ConvertAsWritten, Flows.EmptyMapTypeCounterexample, Flows.ValidateMappedAsWritten, Flows.EmptyMapTypeMapCounterexample | Flows.Convert, Flows.ValidateMapped |

=== FILE: configure.dfy ===
/** `prepare_lume_model_variables` (lume_services/tasks/configure.py): fill the
    values of a copy of the model's variables from a value map, and every
    variable the map does not name from its default. */
module Configure {
  import opened Wrappers
  import opened Values

  /** A model variable: its current value, its default, and the attributes
      preparation does not touch. */
  datatype Variable = Variable(value: Value, default: Value, attributes: map<string, Value>)

  datatype ConfigureError = UnknownVariable(name: string)

  /** The prepared variables: the reference the method below is proved equal to. */
  function Prepared(valueMap: map<string, Value>, variables: map<string, Variable>): (r: map<string, Variable>)
    ensures r.Keys == variables.Keys
    ensures forall n :: n in r ==> r[n].default == variables[n].default && r[n].attributes == variables[n].attributes
    ensures forall n :: n in r && n in valueMap ==> r[n].value == valueMap[n]
    ensures forall n :: n in r && n !in valueMap ==> r[n].value == variables[n].default
  {
    map n | n in variables :: variables[n].(value := if n in valueMap then valueMap[n] else variables[n].default)
  }

  /** The names of `variables` the value map leaves out, each once. */
  method MissingValues(valueMap: map<string, Value>, variables: map<string, Variable>) returns (missing: seq<string>)
    ensures forall n :: n in missing <==> n in variables && n !in valueMap
    ensures forall i, j :: 0 <= i < j < |missing| ==> missing[i] != missing[j]
  {
    missing := [];
    var rest := variables.Keys;
    while rest != {}
      invariant rest <= variables.Keys
      invariant forall n :: n in missing <==> n in variables && n !in rest && n !in valueMap
      invariant forall i, j :: 0 <= i < j < |missing| ==> missing[i] != missing[j]
      decreases rest
    {
      var n :| n in rest;
      if n !in valueMap {
        missing := missing + [n];
      }
      rest := rest - {n};
    }
  }

  /** `prepare_lume_model_variables`: fails on a name the variables lack, otherwise returns the
      prepared copy; the caller's map is a value and stays as it was. */
  method PrepareLumeModelVariables(valueMap: map<string, Value>, variables: map<string, Variable>)
    returns (r: Result<map<string, Variable>, ConfigureError>)
    ensures r.Failure? <==> !(valueMap.Keys <= variables.Keys)
    ensures r.Failure? ==> r.error.name in valueMap && r.error.name !in variables
    ensures r.Success? ==> r.value == Prepared(valueMap, variables)
  {
    var prepared := variables;
    var pending := valueMap.Keys;
    while pending != {}
      invariant pending <= valueMap.Keys
      invariant valueMap.Keys - pending <= variables.Keys
      invariant prepared.Keys == variables.Keys
      invariant forall n :: n in prepared ==>
        prepared[n] == if n in valueMap && n !in pending then variables[n].(value := valueMap[n]) else variables[n]
      decreases pending
    {
      var name :| name in pending;
      if name !in prepared {
        return Failure(UnknownVariable(name));
      }
      prepared := prepared[name := prepared[name].(value := valueMap[name])];
      pending := pending - {name};
    }
    var missing := MissingValues(valueMap, prepared);
    var i := 0;
    while i < |missing|
      invariant 0 <= i <= |missing|
      invariant prepared.Keys == variables.Keys
      invariant forall n :: n in prepared ==>
        prepared[n] == if n in valueMap then variables[n].(value := valueMap[n])
                       else if n in missing[..i] then variables[n].(value := variables[n].default)
                       else variables[n]
    {
      var name := missing[i];
      prepared := prepared[name := prepared[name].(value := prepared[name].default)];
      i := i + 1;
    }
    assert missing[..i] == missing;
    return Success(prepared);
  }

  /** Preparing twice with the same value map changes nothing more. */
  lemma PreparedIdempotent(valueMap: map<string, Value>, variables: map<string, Variable>)
    ensures Prepared(valueMap, Prepared(valueMap, variables)) == Prepared(valueMap, variables)
  {}

  /** The prepared variables do not depend on the values held before. */
  lemma PreparedForgetsOldValues(valueMap: map<string, Value>, a: map<string, Variable>, b: map<string, Variable>)
    requires a.Keys == b.Keys
    requires forall n :: n in a ==> a[n].default == b[n].default && a[n].attributes == b[n].attributes
    ensures Prepared(valueMap, a) == Prepared(valueMap, b)
  {}
}

=== FILE: flow.dfy ===
/** Mapped parameters of a flow (lume_services/flows/flow.py): the three
    parameter variants, the closed table from `map_type` keys to variants, and
    the `mapped_parameters` validator that turns raw inputs into variants. */
module Flows {
  import opened Wrappers
  import opened Values

  /** A parameter collected from the result of a task of another flow. */
  datatype MappedParameter =
    | Raw(parentFlowName: string, parentTaskName: string)
    | File(parentFlowName: string, parentTaskName: string)
    | Db(parentFlowName: string, parentTaskName: string, attributeIndex: Option<seq<Value>>)
  {
    /** The constant `map_type` field each variant carries. */
    function MapType(): string {
      match this
      case Raw(_, _) => "raw"
      case File(_, _) => "file"
      case Db(_, _, _) => "db"
    }
  }

  /** The parameter classes the table dispatches to. */
  datatype ParameterType = RawType | FileType | DbType {
    function Key(): string {
      match this
      case RawType => "raw"
      case FileType => "file"
      case DbType => "db"
    }
  }

  const MappedParameterTypes: map<string, ParameterType> :=
    map["db" := DbType, "file" := FileType, "raw" := RawType]

  datatype FlowError =
    | NotAParameter(value: Value)
    | UnknownMapType(mapType: Value)
    | InvalidParameter(fields: set<string>)

  /** An entry of `mapped_parameters`: an already built parameter, or any
      other Python value (a dict among them). */
  datatype ParamInput = Built(param: MappedParameter) | Supplied(value: Value)

  /** Table lookup; any key outside the table is an error. */
  function GetMappedParameterType(mapType: Value): (r: Result<ParameterType, FlowError>)
    ensures r.Success? <==> mapType in {Str("db"), Str("file"), Str("raw")}
    ensures r.Success? ==> mapType == Str(r.value.Key())
    ensures r.Failure? ==> r.error == UnknownMapType(mapType)
  {
    if mapType.Str? && mapType.s in MappedParameterTypes then
      Success(MappedParameterTypes[mapType.s])
    else
      Failure(UnknownMapType(mapType))
  }

  /** Both parent names are supplied as strings. */
  predicate ParentNamesGiven(fields: map<string, Value>) {
    && "parent_flow_name" in fields && fields["parent_flow_name"].Str?
    && "parent_task_name" in fields && fields["parent_task_name"].Str?
  }

  /** Each variant's `map_type` is a constant field: a supplied value must equal
      the variant's own key, an absent one takes it as default. */
  predicate MapTypeAccepted(t: ParameterType, fields: map<string, Value>) {
    "map_type" !in fields || fields["map_type"] == Str(t.Key())
  }

  /** The optional list `attribute_index` of the db variant; `None` when the
      supplied value is neither a list nor `None`. */
  function AttributeIndex(fields: map<string, Value>): Option<Option<seq<Value>>> {
    if "attribute_index" !in fields then Some(None)
    else
      match fields["attribute_index"]
      case Null => Some(None)
      case List(items) => Some(Some(items))
      case _ => None
  }

  function InvalidParameterFields(t: ParameterType, fields: map<string, Value>): set<string> {
    (if "parent_flow_name" in fields && fields["parent_flow_name"].Str? then {} else {"parent_flow_name"})
    + (if "parent_task_name" in fields && fields["parent_task_name"].Str? then {} else {"parent_task_name"})
    + (if MapTypeAccepted(t, fields) then {} else {"map_type"})
    + (if t == DbType && AttributeIndex(fields).None? then {"attribute_index"} else {})
  }

  /** The keyword constructor `mapped_param_type(**fields)`: keys it does not
      declare are ignored, the declared ones are checked. */
  function Build(t: ParameterType, fields: map<string, Value>): (r: Result<MappedParameter, FlowError>)
    ensures r.Success? <==>
      ParentNamesGiven(fields) && MapTypeAccepted(t, fields) && (t == DbType ==> AttributeIndex(fields).Some?)
    ensures r.Success? ==>
      && r.value.MapType() == t.Key()
      && Str(r.value.parentFlowName) == fields["parent_flow_name"]
      && Str(r.value.parentTaskName) == fields["parent_task_name"]
    ensures r.Success? && r.value.Db? ==> Some(r.value.attributeIndex) == AttributeIndex(fields)
    ensures r.Failure? ==> r.error.InvalidParameter? && r.error.fields != {}
  {
    var invalid := InvalidParameterFields(t, fields);
    if invalid != {} then
      Failure(InvalidParameter(invalid))
    else
      assert "parent_flow_name" !in invalid && "parent_task_name" !in invalid;
      var flow := fields["parent_flow_name"].s;
      var task := fields["parent_task_name"].s;
      match t
      case RawType => Success(Raw(flow, task))
      case FileType => Success(File(flow, task))
      case DbType =>
        assert "attribute_index" !in invalid;
        Success(Db(flow, task, AttributeIndex(fields).value))
  }

  /** One entry of the validator exactly as lume-services writes it: a dict whose
      `map_type` is falsy is handed, `map_type` included, to the raw variant's
      constructor. */
  function ConvertAsWritten(p: ParamInput): (r: Result<MappedParameter, FlowError>)
    ensures p.Built? ==> r == Success(p.param)
  {
    match p
    case Built(param) => Success(param)
    case Supplied(Dict(fields)) =>
      if !Truthy(Get(fields, "map_type")) then
        Build(RawType, fields)
      else
        var t :- GetMappedParameterType(fields["map_type"]);
        Build(t, fields)
    case Supplied(other) => Failure(NotAParameter(other))
  }

  /** One entry of the validator as intended: a falsy `map_type` selects the
      raw default, so it is dropped before the raw variant is built. */
  function Convert(p: ParamInput): (r: Result<MappedParameter, FlowError>)
    ensures p.Built? ==> r == Success(p.param)
    ensures p.Supplied? && !p.value.Dict? ==> r == Failure(NotAParameter(p.value))
    ensures p.Supplied? && p.value.Dict? && !Truthy(Get(p.value.entries, "map_type")) ==>
      && (r.Success? <==> ParentNamesGiven(p.value.entries))
      && (r.Success? ==> r.value.Raw? && r.value.MapType() == "raw")
    ensures p.Supplied? && p.value.Dict? && Truthy(Get(p.value.entries, "map_type")) ==>
      var mapType := p.value.entries["map_type"];
      && (mapType !in {Str("db"), Str("file"), Str("raw")} ==> r == Failure(UnknownMapType(mapType)))
      && (mapType in {Str("db"), Str("file"), Str("raw")} ==>
            (r.Success? <==> ParentNamesGiven(p.value.entries)
                             && (mapType == Str("db") ==> AttributeIndex(p.value.entries).Some?)))
      && (r.Success? ==> Str(r.value.MapType()) == mapType)
    ensures r.Success? && r.value.Db? && p.Supplied? ==> Some(r.value.attributeIndex) == AttributeIndex(p.value.entries)
    ensures r.Success? && p.Supplied? ==>
      && p.value.Dict?
      && ParentNamesGiven(p.value.entries)
      && p.value.entries["parent_flow_name"] == Str(r.value.parentFlowName)
      && p.value.entries["parent_task_name"] == Str(r.value.parentTaskName)
  {
    match p
    case Built(param) => Success(param)
    case Supplied(Dict(fields)) =>
      if !Truthy(Get(fields, "map_type")) then
        Build(RawType, fields - {"map_type"})
      else
        var t :- GetMappedParameterType(fields["map_type"]);
        Build(t, fields)
    case Supplied(other) => Failure(NotAParameter(other))
  }

  /** The signature of a per-entry conversion. */
  type Converter = ParamInput -> Result<MappedParameter, FlowError>

  /** Every entry of `entries` converts. */
  predicate AllConvert(entries: map<string, ParamInput>, convert: Converter) {
    forall k :: k in entries ==> convert(entries[k]).Success?
  }

  /** The loop of the `mapped_parameters` validator with the per-entry
      conversion as a parameter. `None` passes through; otherwise every entry
      is converted and one failing entry fails the whole map. */
  method ValidateWith(v: Option<map<string, ParamInput>>, convert: Converter)
    returns (r: Result<Option<map<string, MappedParameter>>, FlowError>)
    ensures v.None? ==> r == Success(None)
    ensures v.Some? ==> (r.Success? <==> AllConvert(v.value, convert))
    ensures v.Some? && r.Success? ==>
      && r.value.Some?
      && r.value.value.Keys == v.value.Keys
      && forall k :: k in v.value ==> r.value.value[k] == convert(v.value[k]).value
    ensures v.Some? && r.Failure? ==> exists k :: k in v.value && convert(v.value[k]) == Failure(r.error)
  {
    if v.None? {
      return Success(None);
    }
    var entries := v.value;
    var converted: map<string, MappedParameter> := map[];
    var pending := entries.Keys;
    while pending != {}
      invariant pending <= entries.Keys
      invariant converted.Keys == entries.Keys - pending
      invariant forall k :: k in converted ==> convert(entries[k]) == Success(converted[k])
      decreases pending
    {
      var k :| k in pending;
      var c := convert(entries[k]);
      if c.Failure? {
        return Failure(c.error);
      }
      converted := converted[k := c.value];
      pending := pending - {k};
    }
    return Success(Some(converted));
  }

  /** The validator exactly as lume-services writes it. */
  method ValidateMappedAsWritten(v: Option<map<string, ParamInput>>)
    returns (r: Result<Option<map<string, MappedParameter>>, FlowError>)
    ensures v.None? ==> r == Success(None)
    ensures v.Some? ==> (r.Success? <==> AllConvert(v.value, ConvertAsWritten))
    ensures v.Some? && r.Success? ==>
      && r.value.Some?
      && r.value.value.Keys == v.value.Keys
      && forall k :: k in v.value ==> r.value.value[k] == ConvertAsWritten(v.value[k]).value
    ensures v.Some? && r.Failure? ==> exists k :: k in v.value && ConvertAsWritten(v.value[k]) == Failure(r.error)
  {
    r := ValidateWith(v, ConvertAsWritten);
  }

  /** The validator with the intended raw default for a falsy `map_type`. */
  method ValidateMapped(v: Option<map<string, ParamInput>>)
    returns (r: Result<Option<map<string, MappedParameter>>, FlowError>)
    ensures v.None? ==> r == Success(None)
    ensures v.Some? ==> (r.Success? <==> forall k :: k in v.value ==> Convert(v.value[k]).Success?)
    ensures v.Some? && r.Success? ==>
      && r.value.Some?
      && r.value.value.Keys == v.value.Keys
      && forall k :: k in v.value ==> r.value.value[k] == Convert(v.value[k]).value
    ensures v.Some? && r.Failure? ==> exists k :: k in v.value && Convert(v.value[k]) == Failure(r.error)
  {
    r := ValidateWith(v, Convert);
  }

  /** As written, a present but falsy `map_type` makes the validator reject
      the dict, parent names or not. */
  lemma AsWrittenRejectsFalsyMapType(fields: map<string, Value>)
    requires "map_type" in fields && !Truthy(fields["map_type"])
    ensures ConvertAsWritten(Supplied(Dict(fields))).Failure?
  {}

  /** A concrete input on which the two readings part: `map_type` is the empty
      string and both parent names are given. */
  lemma EmptyMapTypeCounterexample()
    ensures
      var fields := map["parent_flow_name" := Str("f"), "parent_task_name" := Str("t"), "map_type" := Str("")];
      && ConvertAsWritten(Supplied(Dict(fields))).Failure?
      && Convert(Supplied(Dict(fields))) == Success(Raw("f", "t"))
  {}

  /** Apart from a present falsy `map_type`, the two readings agree. */
  lemma AsWrittenAgreesElsewhere(p: ParamInput)
    requires !(p.Supplied? && p.value.Dict? && "map_type" in p.value.entries && !Truthy(p.value.entries["map_type"]))
    ensures ConvertAsWritten(p) == Convert(p)
  {}

  /** At the level of the whole map: one entry with `map_type` "" makes the
      validator as written fail, while the intended validator accepts the map.
      With the contracts of `ValidateMappedAsWritten` and `ValidateMapped` this
      fixes both outcomes on this input. */
  lemma EmptyMapTypeMapCounterexample()
    ensures
      var fields := map["parent_flow_name" := Str("f"), "parent_task_name" := Str("t"), "map_type" := Str("")];
      var entries := map["p" := Supplied(Dict(fields))];
      && !AllConvert(entries, ConvertAsWritten)
      && AllConvert(entries, Convert)
      && Convert(entries["p"]) == Success(Raw("f", "t"))
  {
    var fields := map["parent_flow_name" := Str("f"), "parent_task_name" := Str("t"), "map_type" := Str("")];
    var entries := map["p" := Supplied(Dict(fields))];
    EmptyMapTypeCounterexample();
    assert !ConvertAsWritten(entries["p"]).Success?;
  }
}

=== FILE: generic_result.dfy ===
/** The generic result record (lume_services/data/results/generic.py): the
    root validator that derives the record's identity, the strict schema the
    record is then checked against, the unique index, and the single-match
    loader. */
module GenericResults {
  import opened Wrappers
  import opened Values

  /** `f"{cls.__module__}:{cls.__name__}"` for the generic class. */
  const ResultTypeString: string := "lume_services.data.results.generic:Result"
  const DefaultModelType: string := "generic"
  /** The class default of `unique_on`, in its declared order. */
  const DefaultUniqueOn: seq<string> := ["inputs", "outputs", "flow_id"]
  /** The class-level `date_modified` default, a timestamp taken once. */
  const DefaultDateModified: Value := Opaque("utcnow at class definition")

  /** `fingerprint_dict`, applied to a dict given as its ordered items. */
  type Fingerprint = seq<(string, Value)> -> string

  datatype ResultRecord = ResultRecord(
    modelType: string,
    id: Option<string>,
    flowId: string,
    inputs: map<string, Value>,
    outputs: map<string, Value>,
    dateModified: Value,
    uniqueOn: seq<string>,
    uniqueHash: string,
    resultTypeString: string)

  datatype RecordError =
    | MissingUniqueField(field: string)
    | InvalidFields(invalid: set<string>, extra: set<string>)
    | NoSuchAttribute(name: string)
    | NoResults(query: Query)
    | MultipleResults(query: Query)

  // ---------------------------------------------------------------- schema

  /** The declared fields, by field name. */
  const FieldNames: set<string> :=
    {"model_type", "id", "flow_id", "inputs", "outputs", "date_modified",
     "unique_on", "unique_hash", "result_type_string"}

  /** The fields declared with an alias. */
  const Aliases: map<string, string> :=
    map["model_type" := "collection", "id" := "_id", "unique_on" := "index"]

  /** The key a field is read from first: its alias, or its name. */
  const AliasKeys: set<string> :=
    {"collection", "_id", "flow_id", "inputs", "outputs", "date_modified",
     "index", "unique_hash", "result_type_string"}

  function AliasOf(name: string): string {
    if name in Aliases then Aliases[name] else name
  }

  /** Population by alias, falling back to the field name. */
  function Lookup(values: map<string, Value>, name: string): Option<Value> {
    var alias := AliasOf(name);
    if alias in values then Some(values[alias])
    else if name in values then Some(values[name])
    else None
  }

  /** A key the schema reads: an alias key, or a field name whose alias is
      absent. */
  predicate Consumed(values: map<string, Value>, k: string) {
    k in AliasKeys || (k in Aliases && Aliases[k] !in values)
  }

  /** The keys the strict schema rejects. */
  function ExtraKeys(values: map<string, Value>): set<string> {
    set k | k in values && !Consumed(values, k)
  }

  function ParseModelType(values: map<string, Value>): Option<string> {
    match Lookup(values, "model_type")
    case None => Some(DefaultModelType)
    case Some(Str(s)) => Some(s)
    case Some(_) => None
  }

  function ParseId(values: map<string, Value>): Option<Option<string>> {
    match Lookup(values, "id")
    case None => Some(None)
    case Some(Null) => Some(None)
    case Some(Str(s)) => Some(Some(s))
    case Some(_) => None
  }

  function ParseString(values: map<string, Value>, name: string): Option<string> {
    match Lookup(values, name)
    case Some(Str(s)) => Some(s)
    case _ => None
  }

  function ParseDict(values: map<string, Value>, name: string): Option<map<string, Value>> {
    match Lookup(values, name)
    case Some(Dict(entries)) => Some(entries)
    case _ => None
  }

  function ParseDate(values: map<string, Value>): Option<Value> {
    match Lookup(values, "date_modified")
    case None => Some(DefaultDateModified)
    case Some(Null) => None
    case Some(v) => Some(v)
  }

  /** The strings of a list whose every item is a string. */
  function Strings(items: seq<Value>): (r: Option<seq<string>>)
    ensures r.Some? ==> StringValues(r.value) == items
    ensures r.None? <==> exists i :: 0 <= i < |items| && !items[i].Str?
  {
    if |items| == 0 then Some([])
    else if !items[0].Str? then None
    else
      match Strings(items[1..])
      case None =>
        ghost var i :| 0 <= i < |items[1..]| && !items[1..][i].Str?;
        assert !items[i + 1].Str?;
        None
      case Some(rest) =>
        assert forall i :: 1 <= i < |items| ==> items[i] == items[1..][i - 1];
        assert StringValues([items[0].s] + rest) == items;
        Some([items[0].s] + rest)
  }

  function ParseUniqueOn(values: map<string, Value>): Option<seq<string>> {
    match Lookup(values, "unique_on")
    case None => Some(DefaultUniqueOn)
    case Some(List(items)) => Strings(items)
    case Some(_) => None
  }

  function InvalidSchemaFields(values: map<string, Value>): set<string> {
    (if ParseModelType(values).None? then {"model_type"} else {})
    + (if ParseId(values).None? then {"id"} else {})
    + (if ParseString(values, "flow_id").None? then {"flow_id"} else {})
    + (if ParseDict(values, "inputs").None? then {"inputs"} else {})
    + (if ParseDict(values, "outputs").None? then {"outputs"} else {})
    + (if ParseDate(values).None? then {"date_modified"} else {})
    + (if ParseUniqueOn(values).None? then {"unique_on"} else {})
    + (if ParseString(values, "unique_hash").None? then {"unique_hash"} else {})
    + (if ParseString(values, "result_type_string").None? then {"result_type_string"} else {})
  }

  /** Field validation after the root validator, with extra keys forbidden. */
  function Schema(values: map<string, Value>): (r: Result<ResultRecord, RecordError>)
    ensures r.Success? <==> InvalidSchemaFields(values) == {} && ExtraKeys(values) == {}
    ensures r.Failure? ==> r.error == InvalidFields(InvalidSchemaFields(values), ExtraKeys(values))
    ensures r.Success? ==>
      && Lookup(values, "flow_id") == Some(Str(r.value.flowId))
      && Lookup(values, "inputs") == Some(Dict(r.value.inputs))
      && Lookup(values, "outputs") == Some(Dict(r.value.outputs))
      && Lookup(values, "unique_hash") == Some(Str(r.value.uniqueHash))
      && Lookup(values, "result_type_string") == Some(Str(r.value.resultTypeString))
      && (Lookup(values, "id").Some? && Lookup(values, "id").value.Str? ==> r.value.id == Some(Lookup(values, "id").value.s))
      && (Lookup(values, "model_type").None? ==> r.value.modelType == DefaultModelType)
      && (Lookup(values, "model_type").Some? ==> Lookup(values, "model_type") == Some(Str(r.value.modelType)))
      && (Lookup(values, "id") in {None, Some(Null)} ==> r.value.id == None)
      && (Lookup(values, "date_modified").None? ==> r.value.dateModified == DefaultDateModified)
      && (Lookup(values, "date_modified").Some? ==> Lookup(values, "date_modified") == Some(r.value.dateModified))
      && (Lookup(values, "unique_on").None? ==> r.value.uniqueOn == DefaultUniqueOn)
      && (Lookup(values, "unique_on").Some? ==> Lookup(values, "unique_on") == Some(List(StringValues(r.value.uniqueOn))))
      && forall k :: k in values ==> Consumed(values, k)
  {
    var invalid := InvalidSchemaFields(values);
    var extra := ExtraKeys(values);
    if invalid != {} || extra != {} then
      Failure(InvalidFields(invalid, extra))
    else
      assert ParseModelType(values).Some? && ParseId(values).Some?;
      assert ParseString(values, "flow_id").Some? && ParseDate(values).Some?;
      assert ParseDict(values, "inputs").Some? && ParseDict(values, "outputs").Some?;
      assert ParseUniqueOn(values).Some? && ParseString(values, "unique_hash").Some?;
      assert ParseString(values, "result_type_string").Some?;
      Success(ResultRecord(
        ParseModelType(values).value,
        ParseId(values).value,
        ParseString(values, "flow_id").value,
        ParseDict(values, "inputs").value,
        ParseDict(values, "outputs").value,
        ParseDate(values).value,
        ParseUniqueOn(values).value,
        ParseString(values, "unique_hash").value,
        ParseString(values, "result_type_string").value))
  }

  // -------------------------------------------------------- root validator

  /** The first of `fields` whose value is missing or falsy. */
  function FirstMissing(values: map<string, Value>, fields: seq<string>): (r: Option<string>)
    ensures r.None? <==> forall i :: 0 <= i < |fields| ==> Truthy(Get(values, fields[i]))
    ensures r.Some? ==>
      exists i :: 0 <= i < |fields| && fields[i] == r.value && !Truthy(Get(values, fields[i]))
        && forall j :: 0 <= j < i ==> Truthy(Get(values, fields[j]))
  {
    if |fields| == 0 then None
    else if !Truthy(Get(values, fields[0])) then Some(fields[0])
    else
      var rest := FirstMissing(values, fields[1..]);
      if rest.Some? then
        ghost var i :| 0 <= i < |fields[1..]| && fields[1..][i] == rest.value && !Truthy(Get(values, fields[1..][i]))
          && forall j :: 0 <= j < i ==> Truthy(Get(values, fields[1..][j]));
        assert fields[i + 1] == rest.value;
        rest
      else
        assert forall i :: 1 <= i < |fields| ==> fields[i] == fields[1..][i - 1];
        rest
  }

  /** The dict `{f: values[f] for f in fields}` as its ordered items. */
  function SubDict(values: map<string, Value>, fields: seq<string>): seq<(string, Value)> {
    seq(|fields|, i requires 0 <= i < |fields| => (fields[i], Get(values, fields[i])))
  }

  /** What the fingerprint of a record is taken over. */
  function HashInput(values: map<string, Value>): seq<(string, Value)> {
    [("inputs", Get(values, "inputs")), ("outputs", Get(values, "outputs")), ("flow_id", Get(values, "flow_id"))]
  }

  /** `validate_all`: derive the hash unless a truthy one is supplied, turn an
      `ObjectId` id into its string, and stamp the type string. */
  function ValidateAll(values: map<string, Value>, fingerprint: Fingerprint): (r: Result<map<string, Value>, RecordError>)
    ensures r.Failure? <==> !Truthy(Get(values, "unique_hash")) && FirstMissing(values, DefaultUniqueOn).Some?
    ensures r.Failure? ==> r.error == MissingUniqueField(FirstMissing(values, DefaultUniqueOn).value)
    ensures r.Success? ==>
      && r.value.Keys == values.Keys + {"unique_hash", "result_type_string"}
      && r.value["result_type_string"] == Str(ResultTypeString)
      && (Truthy(Get(values, "unique_hash")) ==> r.value["unique_hash"] == values["unique_hash"])
      && (!Truthy(Get(values, "unique_hash")) ==> r.value["unique_hash"] == Str(fingerprint(HashInput(values))))
      && ("_id" in values && values["_id"].ObjectId? ==> r.value["_id"] == Str(values["_id"].hex))
      && ("_id" in values && !values["_id"].ObjectId? ==> r.value["_id"] == values["_id"])
      && forall k :: k in values && k !in {"unique_hash", "_id", "result_type_string"} ==> r.value[k] == values[k]
  {
    var withHash :-
      if Truthy(Get(values, "unique_hash")) then Success(values)
      else
        match FirstMissing(values, DefaultUniqueOn)
        case Some(field) => Failure(MissingUniqueField(field))
        case None =>
          assert SubDict(values, DefaultUniqueOn) == HashInput(values);
          Success(values["unique_hash" := Str(fingerprint(SubDict(values, DefaultUniqueOn)))]);
    var withId :=
      if Truthy(Get(withHash, "_id")) && withHash["_id"].ObjectId? then
        withHash["_id" := Str(withHash["_id"].hex)]
      else withHash;
    Success(withId["result_type_string" := Str(ResultTypeString)])
  }

  /** Building a record: `Result(**values)`, the root validator then the schema. */
  function Construct(values: map<string, Value>, fingerprint: Fingerprint): (r: Result<ResultRecord, RecordError>)
    ensures r.Failure? ==> r.error.MissingUniqueField? || r.error.InvalidFields?
  {
    var checked :- ValidateAll(values, fingerprint);
    Schema(checked)
  }

  // ------------------------------------------------ properties of Construct

  /** The smallest well-formed input builds: a non-empty `flow_id`, `inputs` and
      `outputs`, and nothing else. The record carries them, takes every other
      field's default, and its hash is the fingerprint of the three fields. */
  lemma MinimalRecordBuilds(f: string, ins: map<string, Value>, outs: map<string, Value>, fingerprint: Fingerprint)
    requires |f| > 0 && |ins| > 0 && |outs| > 0
    ensures var values := map["flow_id" := Str(f), "inputs" := Dict(ins), "outputs" := Dict(outs)];
      var r := Construct(values, fingerprint);
      && r.Success?
      && r.value.flowId == f && r.value.inputs == ins && r.value.outputs == outs
      && r.value.modelType == DefaultModelType && r.value.id == None
      && r.value.uniqueOn == DefaultUniqueOn && r.value.dateModified == DefaultDateModified
      && r.value.uniqueHash == fingerprint([("inputs", Dict(ins)), ("outputs", Dict(outs)), ("flow_id", Str(f))])
      && r.value.resultTypeString == ResultTypeString
  {
    var values := map["flow_id" := Str(f), "inputs" := Dict(ins), "outputs" := Dict(outs)];
    var hash := fingerprint([("inputs", Dict(ins)), ("outputs", Dict(outs)), ("flow_id", Str(f))]);
    var expected := map["flow_id" := Str(f), "inputs" := Dict(ins), "outputs" := Dict(outs),
                        "unique_hash" := Str(hash), "result_type_string" := Str(ResultTypeString)];
    MinimalValidateAll(f, ins, outs, fingerprint);
    assert Construct(values, fingerprint) == Schema(expected);
    MinimalSchema(f, ins, outs, hash);
  }

  /** The root validator derives the hash of a minimal input and stamps the type. */
  lemma MinimalValidateAll(f: string, ins: map<string, Value>, outs: map<string, Value>, fingerprint: Fingerprint)
    requires |f| > 0 && |ins| > 0 && |outs| > 0
    ensures var values := map["flow_id" := Str(f), "inputs" := Dict(ins), "outputs" := Dict(outs)];
      ValidateAll(values, fingerprint) == Success(map["flow_id" := Str(f), "inputs" := Dict(ins), "outputs" := Dict(outs),
        "unique_hash" := Str(fingerprint([("inputs", Dict(ins)), ("outputs", Dict(outs)), ("flow_id", Str(f))])),
        "result_type_string" := Str(ResultTypeString)])
  {
    var values := map["flow_id" := Str(f), "inputs" := Dict(ins), "outputs" := Dict(outs)];
    assert Get(values, "unique_hash") == Null;
    assert Truthy(Get(values, DefaultUniqueOn[0])) && Truthy(Get(values, DefaultUniqueOn[1]))
      && Truthy(Get(values, DefaultUniqueOn[2]));
    assert HashInput(values) == [("inputs", Dict(ins)), ("outputs", Dict(outs)), ("flow_id", Str(f))];
  }

  /** The schema accepts the root validator's output for a minimal input and
      fills every other field with its default. */
  lemma MinimalSchema(f: string, ins: map<string, Value>, outs: map<string, Value>, hash: string)
    ensures var values := map["flow_id" := Str(f), "inputs" := Dict(ins), "outputs" := Dict(outs),
                              "unique_hash" := Str(hash), "result_type_string" := Str(ResultTypeString)];
      Schema(values) == Success(ResultRecord(DefaultModelType, None, f, ins, outs, DefaultDateModified,
                                             DefaultUniqueOn, hash, ResultTypeString))
  {
    var values := map["flow_id" := Str(f), "inputs" := Dict(ins), "outputs" := Dict(outs),
                      "unique_hash" := Str(hash), "result_type_string" := Str(ResultTypeString)];
    assert Lookup(values, "model_type") == None && Lookup(values, "id") == None;
    assert Lookup(values, "unique_on") == None && Lookup(values, "date_modified") == None;
    assert ParseModelType(values) == Some(DefaultModelType) && ParseId(values) == Some(None);
    assert ParseUniqueOn(values) == Some(DefaultUniqueOn) && ParseDate(values) == Some(DefaultDateModified);
    assert ParseString(values, "flow_id") == Some(f) && ParseString(values, "unique_hash") == Some(hash);
    assert ParseString(values, "result_type_string") == Some(ResultTypeString);
    assert ParseDict(values, "inputs") == Some(ins) && ParseDict(values, "outputs") == Some(outs);
    assert InvalidSchemaFields(values) == {};
    assert forall k :: k in values ==> Consumed(values, k);
    assert ExtraKeys(values) == {};
  }

  /** Without a truthy hash, a missing or falsy default unique field fails
      construction, naming that field. */
  lemma MissingUniqueFieldFails(values: map<string, Value>, fingerprint: Fingerprint, i: nat)
    requires !Truthy(Get(values, "unique_hash"))
    requires i < |DefaultUniqueOn| && !Truthy(Get(values, DefaultUniqueOn[i]))
    ensures var r := Construct(values, fingerprint);
      && r.Failure? && r.error.MissingUniqueField?
      && r.error.field in DefaultUniqueOn && !Truthy(Get(values, r.error.field))
  {}

  /** A supplied truthy hash skips the field check and is kept as it is. */
  lemma SuppliedHashKept(values: map<string, Value>, fingerprint: Fingerprint)
    requires Truthy(Get(values, "unique_hash"))
    ensures var r := Construct(values, fingerprint);
      && !(r.Failure? && r.error.MissingUniqueField?)
      && (r.Success? ==> Str(r.value.uniqueHash) == values["unique_hash"])
  {}

  /** A derived hash is the fingerprint of exactly the default unique fields,
      in their declared order. */
  lemma DerivedHashIsFingerprint(values: map<string, Value>, fingerprint: Fingerprint)
    requires !Truthy(Get(values, "unique_hash"))
    requires Construct(values, fingerprint).Success?
    ensures Construct(values, fingerprint).value.uniqueHash == fingerprint(HashInput(values))
  {}

  /** Equal `inputs`, `outputs` and `flow_id` give equal derived hashes,
      whatever else the two records carry. */
  lemma EqualUniqueFieldsEqualHash(a: map<string, Value>, b: map<string, Value>, fingerprint: Fingerprint)
    requires !Truthy(Get(a, "unique_hash")) && !Truthy(Get(b, "unique_hash"))
    requires forall i :: 0 <= i < |DefaultUniqueOn| ==> Get(a, DefaultUniqueOn[i]) == Get(b, DefaultUniqueOn[i])
    ensures Construct(a, fingerprint).Success? && Construct(b, fingerprint).Success? ==>
      Construct(a, fingerprint).value.uniqueHash == Construct(b, fingerprint).value.uniqueHash
  {
    assert Get(a, DefaultUniqueOn[0]) == Get(b, DefaultUniqueOn[0]);
    assert Get(a, DefaultUniqueOn[1]) == Get(b, DefaultUniqueOn[1]);
    assert Get(a, DefaultUniqueOn[2]) == Get(b, DefaultUniqueOn[2]);
    assert HashInput(a) == HashInput(b);
    if Construct(a, fingerprint).Success? && Construct(b, fingerprint).Success? {
      DerivedHashIsFingerprint(a, fingerprint);
      DerivedHashIsFingerprint(b, fingerprint);
    }
  }

  /** The hash is taken over the class default `unique_on`: a caller's `index`
      does not change it. */
  lemma CallerIndexIgnoredByHash(values: map<string, Value>, index: Value, fingerprint: Fingerprint)
    requires !Truthy(Get(values, "unique_hash"))
    ensures Construct(values, fingerprint).Success? && Construct(values["index" := index], fingerprint).Success? ==>
      Construct(values["index" := index], fingerprint).value.uniqueHash == Construct(values, fingerprint).value.uniqueHash
  {}

  /** The type string is stamped, overwriting any supplied one. */
  lemma TypeStringStamped(values: map<string, Value>, fingerprint: Fingerprint)
    requires Construct(values, fingerprint).Success?
    ensures Construct(values, fingerprint).value.resultTypeString == ResultTypeString
  {}

  /** An `ObjectId` under `_id` becomes its string; a string id is kept. */
  lemma IdNormalised(values: map<string, Value>, fingerprint: Fingerprint)
    requires "_id" in values
    requires Construct(values, fingerprint).Success?
    ensures values["_id"].ObjectId? ==> Construct(values, fingerprint).value.id == Some(values["_id"].hex)
    ensures values["_id"].Str? ==> Construct(values, fingerprint).value.id == Some(values["_id"].s)
  {}

  /** The domain fields of the record are the supplied ones. */
  lemma DomainFieldsKept(values: map<string, Value>, fingerprint: Fingerprint)
    requires Construct(values, fingerprint).Success?
    ensures var r := Construct(values, fingerprint).value;
      && Get(values, "inputs") == Dict(r.inputs)
      && Get(values, "outputs") == Dict(r.outputs)
      && Get(values, "flow_id") == Str(r.flowId)
  {}

  /** Without a caller `unique_on` or `index`, the record keeps the default. */
  lemma DefaultUniqueOnKept(values: map<string, Value>, fingerprint: Fingerprint)
    requires "index" !in values && "unique_on" !in values
    requires Construct(values, fingerprint).Success?
    ensures Construct(values, fingerprint).value.uniqueOn == DefaultUniqueOn
  {}

  /** A key that is neither a declared field nor an alias is rejected. */
  lemma UndeclaredKeyRejected(values: map<string, Value>, fingerprint: Fingerprint, k: string)
    requires k in values && k !in FieldNames && k !in AliasKeys
    ensures Construct(values, fingerprint).Failure?
  {
    var checked := ValidateAll(values, fingerprint);
    if checked.Success? {
      assert k in checked.value && !Consumed(checked.value, k);
    }
  }

  /** A field given under both its alias and its name is rejected: the name
      is then an extra key. */
  lemma AliasAndNameBothRejected(values: map<string, Value>, fingerprint: Fingerprint, name: string)
    requires name in Aliases && name in values && Aliases[name] in values
    ensures Construct(values, fingerprint).Failure?
  {
    var checked := ValidateAll(values, fingerprint);
    if checked.Success? {
      assert name in checked.value && !Consumed(checked.value, name);
    }
  }

  // ------------------------------------------------------------ unique index

  function StringValues(ss: seq<string>): seq<Value> {
    seq(|ss|, i requires 0 <= i < |ss| => Str(ss[i]))
  }

  /** `getattr(record, name)`: the value of a declared field, by field name. */
  function Attr(r: ResultRecord, name: string): Option<Value> {
    if name == "model_type" then Some(Str(r.modelType))
    else if name == "id" then Some(if r.id.Some? then Str(r.id.value) else Null)
    else if name == "flow_id" then Some(Str(r.flowId))
    else if name == "inputs" then Some(Dict(r.inputs))
    else if name == "outputs" then Some(Dict(r.outputs))
    else if name == "date_modified" then Some(r.dateModified)
    else if name == "unique_on" then Some(List(StringValues(r.uniqueOn)))
    else if name == "unique_hash" then Some(Str(r.uniqueHash))
    else if name == "result_type_string" then Some(Str(r.resultTypeString))
    else None
  }

  /** `{field: getattr(record, field) for field in fields}`, failing on the
      first name that is not an attribute. */
  function IndexOn(r: ResultRecord, fields: seq<string>): (m: Result<map<string, Value>, RecordError>)
    ensures m.Success? <==> forall i :: 0 <= i < |fields| ==> Attr(r, fields[i]).Some?
    ensures m.Success? ==>
      && (forall f :: f in m.value <==> f in fields)
      && (forall f :: f in m.value ==> Attr(r, f) == Some(m.value[f]))
    ensures m.Failure? ==> m.error.NoSuchAttribute? && m.error.name in fields && Attr(r, m.error.name).None?
  {
    if |fields| == 0 then Success(map[])
    else
      match Attr(r, fields[0])
      case None => Failure(NoSuchAttribute(fields[0]))
      case Some(v) =>
        var rest :- IndexOn(r, fields[1..]);
        assert forall i :: 1 <= i < |fields| ==> fields[i] == fields[1..][i - 1];
        Success(rest[fields[0] := v])
  }

  /** `get_unique_result_index`: keyed by the record's own `unique_on`. */
  function GetUniqueResultIndex(r: ResultRecord): Result<map<string, Value>, RecordError> {
    IndexOn(r, r.uniqueOn)
  }

  /** The items of `m` in the order of `fields`. */
  function Ordered(m: map<string, Value>, fields: seq<string>): seq<(string, Value)>
    requires forall i :: 0 <= i < |fields| ==> fields[i] in m
  {
    seq(|fields|, i requires 0 <= i < |fields| => (fields[i], m[fields[i]]))
  }

  /** With the default `unique_on`, the unique index maps each domain field
      to the record's value. */
  lemma DefaultUniqueIndex(r: ResultRecord)
    requires r.uniqueOn == DefaultUniqueOn
    ensures GetUniqueResultIndex(r)
         == Success(map["inputs" := Dict(r.inputs), "outputs" := Dict(r.outputs), "flow_id" := Str(r.flowId)])
  {
    var index := GetUniqueResultIndex(r);
    assert Attr(r, r.uniqueOn[0]).Some? && Attr(r, r.uniqueOn[1]).Some? && Attr(r, r.uniqueOn[2]).Some?;
    assert index.Success?;
    var expected := map["inputs" := Dict(r.inputs), "outputs" := Dict(r.outputs), "flow_id" := Str(r.flowId)];
    forall f | f in index.value.Keys ensures f in expected {
      assert f in r.uniqueOn;
    }
    assert r.uniqueOn[0] in index.value && r.uniqueOn[1] in index.value && r.uniqueOn[2] in index.value;
    assert index.value == expected;
  }

  /** For a record with the default `unique_on` and a derived hash, the unique
      index holds exactly the hashed values, so fingerprinting it in
      `unique_on` order gives the stored hash back. */
  lemma UniqueIndexReproducesHash(values: map<string, Value>, fingerprint: Fingerprint)
    requires !Truthy(Get(values, "unique_hash"))
    requires "index" !in values && "unique_on" !in values
    requires Construct(values, fingerprint).Success?
    ensures var r := Construct(values, fingerprint).value;
      && GetUniqueResultIndex(r).Success?
      && GetUniqueResultIndex(r).value.Keys == {"inputs", "outputs", "flow_id"}
      && fingerprint(Ordered(GetUniqueResultIndex(r).value, r.uniqueOn)) == r.uniqueHash
  {
    var r := Construct(values, fingerprint).value;
    DefaultUniqueOnKept(values, fingerprint);
    DerivedHashIsFingerprint(values, fingerprint);
    DomainFieldsKept(values, fingerprint);
    DefaultUniqueIndex(r);
    var index := GetUniqueResultIndex(r).value;
    assert Ordered(index, r.uniqueOn) == HashInput(values);
  }

  // ------------------------------------------------------------- loading

  /** `load_result`: query the class's default collection and build a record
      from the single match; zero or several matches are errors. */
  function LoadResult(find: (string, Query) -> seq<map<string, Value>>, query: Query, fingerprint: Fingerprint)
    : (r: Result<ResultRecord, RecordError>)
    ensures r == Failure(NoResults(query)) <==> |find(DefaultModelType, query)| == 0
    ensures r == Failure(MultipleResults(query)) <==> |find(DefaultModelType, query)| > 1
    ensures |find(DefaultModelType, query)| == 1 ==> r == Construct(find(DefaultModelType, query)[0], fingerprint)
  {
    var found := find(DefaultModelType, query);
    if |found| == 0 then Failure(NoResults(query))
    else if |found| > 1 then Failure(MultipleResults(query))
    else Construct(found[0], fingerprint)
  }

  /** A loaded document that carries its stored hash and `ObjectId` keeps the
      hash and gets the id as a string. */
  lemma LoadedRecordKeepsIdentity(find: (string, Query) -> seq<map<string, Value>>, query: Query, fingerprint: Fingerprint)
    requires |find(DefaultModelType, query)| == 1
    requires var doc := find(DefaultModelType, query)[0];
      "unique_hash" in doc && doc["unique_hash"].Str? && |doc["unique_hash"].s| > 0
      && "_id" in doc && doc["_id"].ObjectId?
    requires LoadResult(find, query, fingerprint).Success?
    ensures var doc := find(DefaultModelType, query)[0];
      var r := LoadResult(find, query, fingerprint).value;
      r.uniqueHash == doc["unique_hash"].s && r.id == Some(doc["_id"].hex)
  {}
}

=== FILE: memory_backend.dfy ===
/** An in-memory database service: documents are appended in order and
    numbered from 1, `find` filters by class and query and projects, and
    `find_all` filters by collection name. Instantiating the results service
    with it connects `store` to what `find` and `find_all` return. */
module MemoryBackend {
  import opened Wrappers
  import opened Values
  import opened ResultsDbService

  /** Every key of the query is present in the document with an equal value. */
  predicate Matches(fields: map<string, Value>, query: Query) {
    forall k :: k in query ==> k in fields && fields[k] == query[k]
  }

  /** Keep only the listed fields (and `_id`) when a projection is given. */
  function Project(d: Doc, projection: Option<seq<string>>): Doc {
    if projection.None? then d
    else Doc(d.docType, map k | k in d.fields && (k in projection.value || k == "_id") :: d.fields[k])
  }

  /** The contribution of one document to a selection. */
  function Picked(d: Doc, docType: DocType, query: Query, projection: Option<seq<string>>): seq<Doc> {
    if d.docType == docType && Matches(d.fields, query) then [Project(d, projection)] else []
  }

  /** The picked documents, in stored order. */
  function Select(docs: seq<Doc>, docType: DocType, query: Query, projection: Option<seq<string>>): seq<Doc> {
    if |docs| == 0 then []
    else Select(docs[..|docs| - 1], docType, query, projection) + Picked(docs[|docs| - 1], docType, query, projection)
  }

  function InCollection(docs: seq<Doc>, collection: string): seq<Doc> {
    if |docs| == 0 then []
    else
      InCollection(docs[..|docs| - 1], collection)
      + (if docs[|docs| - 1].docType.collection == collection then [docs[|docs| - 1]] else [])
  }

  function InsertOne(docs: seq<Doc>, d: Doc): InsertResult {
    InsertResult(docs + [d], Int(|docs| + 1))
  }

  const Memory: DBService := DBService(InsertOne, Select, InCollection)

  const MemoryService: Service := Service(Memory, ModelDocs)

  /** Selecting from a sequence with one more document at the end. */
  lemma SelectAppend(docs: seq<Doc>, d: Doc, docType: DocType, query: Query, projection: Option<seq<string>>)
    ensures Select(docs + [d], docType, query, projection)
         == Select(docs, docType, query, projection) + Picked(d, docType, query, projection)
  {}

  /** No document matching means an empty selection. */
  lemma {:induction false} SelectNone(docs: seq<Doc>, docType: DocType, query: Query, projection: Option<seq<string>>)
    requires forall i :: 0 <= i < |docs| ==> !(docs[i].docType == docType && Matches(docs[i].fields, query))
    ensures Select(docs, docType, query, projection) == []
  {
    if |docs| > 0 {
      SelectNone(docs[..|docs| - 1], docType, query, projection);
    }
  }

  /** The empty query without projection selects the whole collection of a
      class whose collection is unique in the registry. */
  lemma {:induction false} SelectAllIsCollection(docs: seq<Doc>, modelType: string)
    requires modelType in ModelDocs
    requires forall i :: 0 <= i < |docs| ==> docs[i].docType in ModelDocs.Values
    ensures Select(docs, ModelDocs[modelType], map[], None) == InCollection(docs, ModelDocs[modelType].collection)
  {
    if |docs| > 0 {
      SelectAllIsCollection(docs[..|docs| - 1], modelType);
    }
  }

  /** A registered `store` into memory always confirms, and appends exactly one
      document built from the keyword fields. */
  lemma StoreAppendsOne(docs: seq<Doc>, modelType: string, kwargs: map<string, Value>)
    requires modelType in ModelDocs
    ensures var out := Store(MemoryService, docs, modelType, kwargs);
      out.stored == Success(true) && out.docs == docs + [Doc(ModelDocs[modelType], kwargs)]
  {}

  /** A stored record is found again by a query it matches, and it is the only
      match when nothing matched before. */
  lemma StoreThenFind(docs: seq<Doc>, modelType: string, kwargs: map<string, Value>, query: Query)
    requires modelType in ModelDocs
    requires Matches(kwargs, query)
    requires forall i :: 0 <= i < |docs| ==> !(docs[i].docType == ModelDocs[modelType] && Matches(docs[i].fields, query))
    ensures var out := Store(MemoryService, docs, modelType, kwargs);
      Find(MemoryService, out.docs, modelType, query, None) == Success([Doc(ModelDocs[modelType], kwargs)])
  {
    var t := ModelDocs[modelType];
    var d := Doc(t, kwargs);
    StoreAppendsOne(docs, modelType, kwargs);
    var out := Store(MemoryService, docs, modelType, kwargs);
    assert out.docs == docs + [d];
    SelectAppend(docs, d, t, query, None);
    SelectNone(docs, t, query, None);
    assert Picked(d, t, query, None) == [d];
    assert Select(out.docs, t, query, None) == [d];
    assert Find(MemoryService, out.docs, modelType, query, None) == Success(Select(out.docs, t, query, None));
  }

  /** With only registered classes stored, `find_all` of a registered name
      agrees with `find` without filter; `find_all` of an empty store is the
      empty list, not an error. */
  lemma FindAllAgreesWithFind(docs: seq<Doc>, modelType: string)
    requires modelType in ModelDocs
    requires forall i :: 0 <= i < |docs| ==> docs[i].docType in ModelDocs.Values
    ensures FindWithDefaults(MemoryService, docs, modelType) == Success(FindAll(MemoryService, docs, modelType))
    ensures FindAll(MemoryService, [], modelType) == []
  {
    SelectAllIsCollection(docs, modelType);
  }
}

=== FILE: results_db_service.dfy ===
/** The results database façade (lume_services/data/results/results_db_service.py):
    a registry lookup from model type name to document class, and `store`,
    `find` and `find_all` over a backend whose behaviour is left abstract. */
module ResultsDbService {
  import opened Wrappers
  import opened Values

  /** A document class and the collection it is stored in. */
  datatype DocType = DocType(className: string, collection: string)

  /** The module-level registry the lookup consults. */
  const ModelDocs: map<string, DocType> :=
    map["generic" := DocType("GenericResultDocument", "generic"),
        "impact" := DocType("ImpactResultDocument", "impact")]

  /** A document built by a document class from keyword fields. */
  datatype Doc = Doc(docType: DocType, fields: map<string, Value>)

  /** What `insert_one` gives back: the backend's new documents and the
      result's `inserted_id` (`None` when no identity was assigned). */
  datatype InsertResult = InsertResult(docs: seq<Doc>, insertedId: Value)

  /** The injected database service; its state is the sequence of documents
      it holds, its three calls are whatever the backend does. */
  datatype DBService = DBService(
    insertOne: (seq<Doc>, Doc) -> InsertResult,
    find: (seq<Doc>, DocType, Query, Option<seq<string>>) -> seq<Doc>,
    findAll: (seq<Doc>, string) -> seq<Doc>)

  /** `ResultsDBService(db_service, model_docs)`. */
  datatype Service = Service(dbService: DBService, modelDocs: map<string, DocType>)

  datatype ServiceError = UnknownModelType(modelType: string)

  /** `store` leaves the backend's documents in `docs` and reports its boolean
      (or the lookup error) in `stored`. */
  datatype StoreOutcome = StoreOutcome(docs: seq<Doc>, stored: Result<bool, ServiceError>)

  /** `_get_model_doc_type`: resolved through the module-level registry, so the
      result depends on the name alone and never on the service's own
      `modelDocs`. */
  function GetModelDocType(svc: Service, modelType: string): (r: Result<DocType, ServiceError>)
    ensures r.Success? <==> modelType in ModelDocs
    ensures r.Success? ==> r.value == ModelDocs[modelType]
    ensures r.Failure? ==> r.error == UnknownModelType(modelType)
  {
    if modelType in ModelDocs then Success(ModelDocs[modelType])
    else Failure(UnknownModelType(modelType))
  }

  /** `store(model_type, **kwargs)`: resolve the class, build one document, hand
      it to `insert_one` once, and report whether an identity came back. */
  function Store(svc: Service, docs: seq<Doc>, modelType: string, kwargs: map<string, Value>): (r: StoreOutcome)
    ensures modelType !in ModelDocs ==> r.stored == Failure(UnknownModelType(modelType)) && r.docs == docs
    ensures modelType in ModelDocs ==>
      var inserted := svc.dbService.insertOne(docs, Doc(ModelDocs[modelType], kwargs));
      && r.stored.Success?
      && (r.stored.value <==> Truthy(inserted.insertedId))
      && r.docs == inserted.docs
  {
    match GetModelDocType(svc, modelType)
    case Failure(e) => StoreOutcome(docs, Failure(e))
    case Success(docType) =>
      var inserted := svc.dbService.insertOne(docs, Doc(docType, kwargs));
      StoreOutcome(inserted.docs, Success(Truthy(inserted.insertedId)))
  }

  /** `find(model_type, query, fields)`: resolve the class and return the
      backend's matches, in order. */
  function Find(svc: Service, docs: seq<Doc>, modelType: string, query: Query, fields: Option<seq<string>>)
    : (r: Result<seq<Doc>, ServiceError>)
    ensures r.Success? <==> modelType in ModelDocs
    ensures r.Success? ==> r.value == svc.dbService.find(docs, ModelDocs[modelType], query, fields)
    ensures r.Failure? ==> r.error == UnknownModelType(modelType)
  {
    var docType :- GetModelDocType(svc, modelType);
    Success(svc.dbService.find(docs, docType, query, fields))
  }

  /** `find(model_type)` with the defaults: the empty query, no projection. */
  function FindWithDefaults(svc: Service, docs: seq<Doc>, modelType: string): (r: Result<seq<Doc>, ServiceError>)
    ensures r.Failure? <==> modelType !in ModelDocs
    ensures r.Success? ==> r.value == svc.dbService.find(docs, ModelDocs[modelType], map[], None)
  {
    Find(svc, docs, modelType, map[], None)
  }

  /** `find_all(model_type)`: the name goes to the backend unresolved, so it
      never fails on an unregistered name. */
  function FindAll(svc: Service, docs: seq<Doc>, modelType: string): (r: seq<Doc>)
  {
    svc.dbService.findAll(docs, modelType)
  }

  /** Registry resolution is asymmetric: for a name the registry lacks,
      `find` fails and `store` inserts nothing, whatever the keyword fields,
      while `find_all` still reaches the backend. */
  lemma UnregisteredNameAsymmetry(svc: Service, docs: seq<Doc>, modelType: string, kwargs: map<string, Value>,
                                  query: Query, fields: Option<seq<string>>)
    requires modelType !in ModelDocs
    ensures Find(svc, docs, modelType, query, fields) == Failure(UnknownModelType(modelType))
    ensures Store(svc, docs, modelType, kwargs).docs == docs
    ensures Store(svc, docs, modelType, kwargs).stored == Failure(UnknownModelType(modelType))
    ensures FindAll(svc, docs, modelType) == svc.dbService.findAll(docs, modelType)
  {}

  /** Two services that differ only in their injected registry resolve,
      store and find alike. */
  lemma InjectedRegistryIgnored(svc: Service, other: map<string, DocType>, docs: seq<Doc>, modelType: string,
                                kwargs: map<string, Value>, query: Query, fields: Option<seq<string>>)
    ensures GetModelDocType(svc.(modelDocs := other), modelType) == GetModelDocType(svc, modelType)
    ensures Store(svc.(modelDocs := other), docs, modelType, kwargs) == Store(svc, docs, modelType, kwargs)
    ensures Find(svc.(modelDocs := other), docs, modelType, query, fields) == Find(svc, docs, modelType, query, fields)
  {}
}

=== FILE: values.dfy ===
/** The Python values the validators inspect: JSON-like data plus the two
    non-JSON objects that reach them, a BSON `ObjectId` and an opaque object
    (a `datetime`, say). */
module Values {

  datatype Value =
    | Null
    | Bool(b: bool)
    | Int(i: int)
    | Str(s: string)
    | List(items: seq<Value>)
    | Dict(entries: map<string, Value>)
    | ObjectId(hex: string)
    | Opaque(tag: string)

  /** A database query: field names mapped to the values they must hold. */
  type Query = map<string, Value>

  /** Python truthiness: `None`, `False`, zero and empty containers are falsy;
      every other object is truthy. */
  predicate Truthy(v: Value) {
    match v
    case Null => false
    case Bool(b) => b
    case Int(i) => i != 0
    case Str(s) => |s| > 0
    case List(items) => |items| > 0
    case Dict(entries) => |entries| > 0
    case ObjectId(_) => true
    case Opaque(_) => true
  }

  /** `d.get(k)`: the value under `k`, or `None` when `k` is absent. */
  function Get(d: map<string, Value>, k: string): (v: Value)
    ensures k in d ==> v == d[k]
    ensures k !in d ==> v == Null
  {
    if k in d then d[k] else Null
  }
}

=== FILE: wrappers.dfy ===
/** The two outcome shapes the model uses: `Option` for a value that may be absent
    (Python's `None`), and `Result` for an operation that either yields a value or
    reports the error Python would raise. `Result` supports `:-`, so the first error
    ends a computation. */
module Wrappers {

  datatype Option<+T> = None | Some(value: T)

  datatype Result<+T, +E> = Success(value: T) | Failure(error: E) {

    predicate IsFailure() {
      Failure?
    }

    function PropagateFailure<U>(): Result<U, E>
      requires Failure?
    {
      Failure(error)
    }

    function Extract(): T
      requires Success?
    {
      value
    }
  }
}
